=== FILE: README.md ===
# hide-loading-cursor: a Dafny model of the reversible AppStarting override

The Windhawk mod `hide-loading-cursor` hides the "working in background"
cursor. When it is activated (`Wh_ModInit`) it replaces the user's
`AppStarting` cursor, under `HKCU\Control Panel\Cursors`, with the `Arrow`
cursor. When it is deactivated (`Wh_ModUninit`) it puts the original back.
The original is snapshotted into a private key,
`HKCU\Software\WindhawkMods\hide-loading-cursor`, once per apply session.
The session is marked by the DWORD `Applied`. The backup record is stored as
`PrevAppStartingExists`, `PrevAppStartingType` and `PrevAppStartingValue`.

This project models the mod as pure functions over an immutable registry.

- `Registry` holds the per-user registry as `map<keyPath, map<valueName, Value>>`.
  A `Value` is a `Dword(n)` or a `Str(tag, chars)`. A `Str` keeps its raw type
  tag and its stored characters, with the terminating NUL included. The module
  also has the typed accessors `QueryStringValue`, `QueryDwordValue`,
  `SetDwordValue` and `SetStringValue`. They implement the write-one-NUL and
  strip-one-NUL rule and normalise string type tags.
- `WideText` holds the comparison `_wcsicmp(a.c_str(), b.c_str()) == 0`. It
  sees each string only up to its first NUL and folds ASCII letters, as
  `_wcsicmp` does in the default "C" locale.
- `CursorOverride` holds the controller. It contains the snapshot
  `StoreOriginalAppStarting`, the choice of replacement (`Replacement`, with
  `GetWindowsArrowPath` as the fallback), and `ApplyCursorOverride` and
  `RestoreCursors`. It also holds the host hooks `ModInit`/`ModUninit`, which
  thread `g_applied` through as an explicit flag.
- `OverrideProperties` holds the lemmas that relate several calls: no
  re-snapshot, idempotence, round trip, and the failure gap.
- `FlagFirst` holds a reordered Apply that closes that gap (see Findings).

The outside world becomes parameters and results:

- The Windows directory is an `Option<string>`.
- A set of `Step`s names the registry calls that fail in a run. A failed
  write leaves its key unchanged.
- The `SystemParametersInfoW(SPI_SETCURSORS, …)` broadcast is a `notified`
  flag in the result.

Apply and Restore return the new registry, Apply's boolean result, and
`notified`.

Three behaviours of the code that the model keeps:

- Restore broadcasts and deletes the private key only when the Cursors key
  opens. When it does not open, Restore changes nothing.
- A backup record whose value cannot be read makes Restore delete
  AppStarting. It does not write back an empty string.
- The replacement is compared through `c_str()`, so only the characters
  before the first NUL take part.

One consequence of the code, proved as `NonStringTargetDeleted`: an original
AppStarting that is not a string (a REG_DWORD, say) cannot be read. The
snapshot records it as absent, so Apply followed by Restore deletes it.

## Model

| member | source | states |
|---|---|---|
| `Registry.QueryStringValue` | mods/hide-loading-cursor.wh.cpp:37-73 | succeeds exactly when the value exists with type REG_SZ or REG_EXPAND_SZ; returns that type and the stored characters with exactly one trailing NUL removed when there is one, and unchanged otherwise |
| `Registry.QueryDwordValue` | mods/hide-loading-cursor.wh.cpp:75-88 | succeeds exactly when the value exists with type REG_DWORD, returning its number |
| `Registry.SetDwordValue` | mods/hide-loading-cursor.wh.cpp:90-94 | reading the name back as a DWORD gives the number written, as a string fails; no other value of the key changes |
| `Registry.NormalizeStringType` | mods/hide-loading-cursor.wh.cpp:100-103 | the tag written is always a string type: a string type is kept as given and any other tag becomes REG_SZ |
| `Registry.SetStringValue` | mods/hide-loading-cursor.wh.cpp:96-109 | string round trip: reading back gives exactly the string written (one NUL appended, one stripped) under the normalised tag; the stored value ends in NUL; no other value changes |
| `Registry.RawSetString` | mods/hide-loading-cursor.wh.cpp:199-202 | a raw `RegSetValueExW` of `c_str()` plus NUL under an unnormalised tag reads back as written when the tag is a string type and is unreadable otherwise; no other value changes |
| `Registry.DeleteValue` | mods/hide-loading-cursor.wh.cpp:142-143 | the value is gone and no other value changes |
| `Registry.CanonicalRewriteExact` | mods/hide-loading-cursor.wh.cpp:61-63 | writing back a string as read reproduces a stored value that ended in NUL exactly |
| `WideText.CStr` | mods/hide-loading-cursor.wh.cpp:194 | the `c_str()` view is a NUL-free prefix that ends at the first NUL or at the end |
| `WideText.IEqualsNulFree` | mods/hide-loading-cursor.wh.cpp:194 | for NUL-free strings the comparison holds exactly when lengths agree and every position agrees after case folding |
| `WideText.IEqualsStopsAtNul` | mods/hide-loading-cursor.wh.cpp:194 | characters after a NUL do not take part in the comparison |
| `WideText.IEqualsEquivalence` | mods/hide-loading-cursor.wh.cpp:194 | the comparison is reflexive, symmetric and transitive |
| `CursorOverride.ReadBackup` | mods/hide-loading-cursor.wh.cpp:241-249 | Restore's reads of the backup: the exists flag and the type are the DWORDs read, defaulting to 0 and REG_SZ when unreadable; the value is present exactly when it reads as a string, and is then the string read |
| `CursorOverride.StoreOriginalAppStarting` | mods/hide-loading-cursor.wh.cpp:127-147 | succeeds exactly when the writes it reaches succeed; on success the backup restores exactly what AppStarting reads as (tag and string) with exists = 1 and the type and value entries holding AppStarting's tag and string, and when AppStarting is unreadable it records exists = 0 and removes stale type/value entries; only the three backup entries change |
| `CursorOverride.GetWindowsArrowPath` | mods/hide-loading-cursor.wh.cpp:111-125 | succeeds exactly when the Windows directory is known; the path is that directory followed by `\Cursors\aero_arrow.cur` |
| `CursorOverride.Replacement` | mods/hide-loading-cursor.wh.cpp:176-187 | a readable non-empty Arrow is used with its own tag; otherwise the fallback path as REG_SZ, or nothing without a Windows directory; the tag is always a string type |
| `CursorOverride.PrepareApply` | mods/hide-loading-cursor.wh.cpp:149-187 | up to the replacement only the private key changes; a first session is exactly one where Applied was not a nonzero DWORD, and then the snapshot matches AppStarting; otherwise the private key is untouched |
| `CursorOverride.ApplyCursorOverride` | mods/hide-loading-cursor.wh.cpp:149-225 | a session is open afterwards exactly when Apply succeeded or one was already open; on success AppStarting reads as the replacement ignoring case; the broadcast happens only on success and exactly when the old value was unreadable or differed, in which case AppStarting equals the replacement with its tag; no Cursors value other than AppStarting and no other key changes |
| `CursorOverride.RestoreCursors` | mods/hide-loading-cursor.wh.cpp:227-275 | acts exactly when the private key opens with Applied nonzero and the Cursors key opens, otherwise changes nothing and does not broadcast; when it acts it writes back the saved value and tag (or deletes AppStarting when nothing was saved) unless that write fails, when AppStarting stays as it was; in either case it broadcasts, deletes the private key, and changes nothing else |
| `CursorOverride.ModInit` | mods/hide-loading-cursor.wh.cpp:279-282 | the recorded flag, registry and broadcast are Apply's result; when set a session is open, a failed activation never broadcasts, and without faults activation succeeds whenever the Cursors key exists and a replacement is available |
| `CursorOverride.ModUninit` | mods/hide-loading-cursor.wh.cpp:284-288 | deactivation after a failed activation changes nothing; after a successful one it always calls Restore, which broadcasts and removes the private key exactly when the private key opens with Applied set and the Cursors key opens, whatever other steps fail |
| `OverrideProperties.ApplySucceedsIff` | mods/hide-loading-cursor.wh.cpp:151-214 | Apply error paths: it fails exactly when the private key cannot be created, the Cursors key does not open, a snapshot write fails, no replacement exists, the needed AppStarting write fails, or the Applied write fails on a first session |
| `OverrideProperties.ApplyFailureKeepsCursors` | mods/hide-loading-cursor.wh.cpp:163-214 | a failed Apply never broadcasts, and either leaves the Cursors key as it was or is exactly the first-session run where the AppStarting write succeeded and the Applied write failed, leaving AppStarting reading as the replacement |
| `OverrideProperties.NoReSnapshot` | mods/hide-loading-cursor.wh.cpp:158-174 | with Applied already nonzero, Apply leaves the whole private key, backup included, unchanged |
| `OverrideProperties.FirstSessionRecordsBackup` | mods/hide-loading-cursor.wh.cpp:127-147 | after a successful first-session Apply, Applied is 1 and the backup restores exactly the AppStarting read before Apply (exists = 0 when there was none) |
| `OverrideProperties.SavedTargetIgnoresApplied` | mods/hide-loading-cursor.wh.cpp:210 | setting Applied does not disturb the backup record |
| `OverrideProperties.ApplyIdempotent` | mods/hide-loading-cursor.wh.cpp:158-224 | a second Apply right after a successful one returns success, changes nothing and does not broadcast |
| `OverrideProperties.OpenSessionNoUpdateIsNoOp` | mods/hide-loading-cursor.wh.cpp:189-224 | with a session open and AppStarting already right, Apply is a successful no-op |
| `OverrideProperties.AlreadyCorrectNoWrite` | mods/hide-loading-cursor.wh.cpp:189-224 | when AppStarting already matches the replacement ignoring case, Apply writes nothing to the Cursors key and does not broadcast; without faults it still succeeds and leaves a session open (on a second session, with nothing changed) |
| `OverrideProperties.RoundTrip` | mods/hide-loading-cursor.wh.cpp:241-274 | Restore after a successful first-session Apply gives AppStarting back with its original string and type tag (REG_EXPAND_SZ stays REG_EXPAND_SZ), or deletes it if it was unreadable; it removes the private key and leaves every other value and key as before |
| `OverrideProperties.RoundTripExact` | mods/hide-loading-cursor.wh.cpp:260-267 | with no private key beforehand and AppStarting absent or NUL-terminated, Apply then Restore returns the registry exactly |
| `OverrideProperties.RewriteOfCanonicalIsIdentity` | mods/hide-loading-cursor.wh.cpp:260-267 | Restore's rewrite of a NUL-terminated or absent AppStarting gives back the original table |
| `OverrideProperties.NonStringTargetDeleted` | mods/hide-loading-cursor.wh.cpp:130-144 | an AppStarting that is not a string type is recorded as absent and deleted by the round trip |
| `OverrideProperties.RestoreOnce` | mods/hide-loading-cursor.wh.cpp:229-239 | once Restore has acted, a second Restore finds no private key and changes nothing |
| `OverrideProperties.AppliedWriteGap` | mods/hide-loading-cursor.wh.cpp:198-214 | if the first-session Applied write fails after AppStarting was rewritten, Apply reports failure while AppStarting holds the replacement and no session is open |
| `OverrideProperties.AppliedWriteGapLosesOriginal` | mods/hide-loading-cursor.wh.cpp:158-174 | after that failure the next Apply snapshots the replacement, so the original AppStarting can no longer be restored |
| `OverrideProperties.SessionRoundTrip` | mods/hide-loading-cursor.wh.cpp:279-288 | deactivation restores only when activation succeeded, and then AppStarting reads as before activation and the private key is gone |
| `OverrideProperties.ScenarioTargetAbsent` | mods/hide-loading-cursor.wh.cpp:170-224 | AppStarting absent and Arrow `C:\Win\cur1.cur`: Apply sets AppStarting to it with exists = 0 and broadcasts; Restore gives back the registry exactly |
| `FlagFirst.ApplyFlagFirst` | mods/hide-loading-cursor.wh.cpp:198-214 | corrected order: a failed Apply never changes the Cursors key and never broadcasts, and success leaves a session open |
| `FlagFirst.FlagFirstAgrees` | mods/hide-loading-cursor.wh.cpp:198-214 | the corrected order gives the same result as the source whenever neither the AppStarting nor the Applied write fails |

## Left out

- Win32 handles, access masks and `RegCloseKey`: opening or creating a key is a map lookup or insert.
- Intermediate keys: creating `Software\WindhawkMods\hide-loading-cursor` does not model the creation of `Software\WindhawkMods`, and deleting it removes only that key. A failed `RegDeleteKeyW` (for example because of subkeys) is not modelled.
- Key and value names are compared exactly. The real registry compares them case-insensitively, but the program only uses its own fixed names.
- Read failures other than "absent" and "wrong type" are not modelled. These are I/O errors, and a value that changes between the size query and the read in `QueryStringValue`.
- Byte sizes and `wchar_t` width: the model works on characters. An odd byte count, which the source truncates to whole characters, is not modelled.
- QueryDwordValue: a value tagged REG_DWORD whose data is not a DWORD is treated as unreadable. Win32 reads such data into the zero-initialised 4-byte buffer when it has at most four bytes, and fails when it has more. The program writes its private key's DWORDs only through `SetDwordValue`, so such a value there can only come from an outside edit of the registry.
- StoreOriginalAppStarting: the best-effort deletion of stale backup entries is assumed to succeed, because the source ignores its result.
- `GetWindowsDirectoryW`: the `MAX_PATH` buffer and the length checks are reduced to an `Option<string>` input.
- `_wcsicmp`: only the ASCII fold of the default "C" locale is modelled. Other locales and Unicode collation are not.
- `SystemParametersInfoW`: what it does (reloading cursors, updating the user profile) is reduced to the `notified` flag.
- The Windhawk metadata and readme header, and the host loader, are not logic.
- Other programs changing the registry between Apply and Restore: every call takes the registry as it finds it, so the lemmas that chain calls assume no change in between.

## Findings

| source | as written | input that shows it | evidently intended | confidence | as-written member | corrected member |
|---|---|---|---|---|---|---|
| mods/hide-loading-cursor.wh.cpp:198-214 | On a first session AppStarting is rewritten before `Applied` is set. If that write fails, Apply returns false and so Uninit never restores, yet AppStarting already holds the replacement. The next activation then snapshots the replacement as the "original". | No private key, AppStarting differs from the Arrow value, and the `Applied` write fails | A failed Apply must never leave AppStarting changed without an open session recording the backup. Setting `Applied` before writing AppStarting achieves this | not executed; high | `OverrideProperties.AppliedWriteGap` | `FlagFirst.ApplyFlagFirst` |

`ModInit` keeps the source's order because it models the code as written.
`FlagFirst.FlagFirstAgrees` proves that the corrected order gives the same
result whenever neither reordered write fails. So the idempotence,
no-re-snapshot and round-trip results hold for the corrected Apply in those
runs too.

=== FILE: cursor_override.dfy ===
/**
 * The cursor override: `ApplyCursorOverride` snapshots the user's AppStarting
 * cursor into a private key once per apply session and replaces it with the
 * arrow cursor; `RestoreCursors` puts the snapshot back and deletes the
 * private key; `ModInit`/`ModUninit` are the host's activation hooks.
 *
 * Every operation is a pure function of the registry. The Windows directory
 * is a parameter, a set of failing steps stands for the Win32 calls that can
 * fail, and the cursor refresh broadcast (`SystemParametersInfoW` with
 * SPI_SETCURSORS) is reported as a `notified` flag.
 */
module CursorOverride {
  import opened Optional
  import opened WideText
  import opened Registry

  const CursorsKeyPath: string := "Control Panel\\Cursors"
  const ModKeyPath: string := "Software\\WindhawkMods\\hide-loading-cursor"
  const ArrowName: string := "Arrow"
  const AppStartingName: string := "AppStarting"
  const AppliedName: string := "Applied"
  const PrevExistsName: string := "PrevAppStartingExists"
  const PrevTypeName: string := "PrevAppStartingType"
  const PrevValueName: string := "PrevAppStartingValue"
  const ArrowSuffix: string := "\\Cursors\\aero_arrow.cur"

  /** The registry calls that can fail. A failed write leaves its key as it was. */
  datatype Step =
    | CreateModKey        // RegCreateKeyExW of the private key in Apply
    | OpenModKey          // RegOpenKeyExW of the private key in Restore
    | OpenCursorsKey      // RegOpenKeyExW of the Cursors key (Apply or Restore)
    | WritePrevExists     // snapshot: PrevAppStartingExists
    | WritePrevType       // snapshot: PrevAppStartingType
    | WritePrevValue      // snapshot: PrevAppStartingValue
    | WriteAppStarting    // Apply: the replacement into AppStarting
    | WriteApplied        // Apply: Applied = 1
    | RestoreAppStarting  // Restore: the write-back or deletion of AppStarting

  type Faults = set<Step>

  /** The names of the backup record's entries in the private key. */
  const BackupNames: set<string> := {PrevExistsName, PrevTypeName, PrevValueName}

  /** The private key's table, if the key exists. */
  function ModTable(st: Store): Option<Table> {
    if ModKeyPath in st then Some(st[ModKeyPath]) else None
  }

  /** `Applied` reads as a nonzero DWORD: an apply session is open. */
  predicate IsApplied(modT: Table) {
    match QueryDwordValue(modT, AppliedName)
    case Some(n) => n != 0
    case None => false
  }

  /** The store's private key exists and records an open apply session. */
  predicate SessionOpen(st: Store) {
    ModKeyPath in st && IsApplied(st[ModKeyPath])
  }

  /** The backup record as Restore reads it, with its defaults for missing entries. */
  datatype Backup = Backup(prevExists: DWORD, prevType: DWORD, prevValue: Option<string>)

  function ReadBackup(modT: Table): (b: Backup)
    ensures QueryDwordValue(modT, PrevExistsName).Some? ==> b.prevExists == QueryDwordValue(modT, PrevExistsName).value
    ensures QueryDwordValue(modT, PrevExistsName).None? ==> b.prevExists == 0
    ensures QueryDwordValue(modT, PrevTypeName).Some? ==> b.prevType == QueryDwordValue(modT, PrevTypeName).value
    ensures QueryDwordValue(modT, PrevTypeName).None? ==> b.prevType == REG_SZ
    ensures b.prevValue.Some? <==> QueryStringValue(modT, PrevValueName).Some?
    ensures b.prevValue.Some? ==> b.prevValue.value == QueryStringValue(modT, PrevValueName).value.s
  {
    Backup(
      QueryDwordValue(modT, PrevExistsName).GetOr(0),
      QueryDwordValue(modT, PrevTypeName).GetOr(REG_SZ),
      match QueryStringValue(modT, PrevValueName)
      case Some(v) => Some(v.s)
      case None => None)
  }

  /** What Restore puts back into AppStarting: a typed string, or None to delete it. */
  function SavedTarget(modT: Table): Option<TypedString> {
    var b := ReadBackup(modT);
    if b.prevExists != 0 && b.prevValue.Some? then Some(TypedString(b.prevValue.value, b.prevType)) else None
  }

  /** Outcome of the snapshot step: the private key's new table and whether every write succeeded. */
  datatype Snapshot = Snapshot(modT: Table, ok: bool)

  /**
   * Records the current AppStarting value (or its absence) in the private key.
   * On success the backup restores exactly what AppStarting reads as now, and
   * nothing but the three backup entries changes.
   */
  function StoreOriginalAppStarting(modT: Table, cursors: Table, faults: Faults): (r: Snapshot)
    ensures r.ok <==>
      WritePrevExists !in faults &&
      (QueryStringValue(cursors, AppStartingName).Some? ==> WritePrevType !in faults && WritePrevValue !in faults)
    ensures r.ok ==> SavedTarget(r.modT) == QueryStringValue(cursors, AppStartingName)
    ensures r.ok && QueryStringValue(cursors, AppStartingName).Some? ==>
      QueryDwordValue(r.modT, PrevExistsName) == Some(1)
    ensures r.ok && QueryStringValue(cursors, AppStartingName).Some? ==>
      QueryDwordValue(r.modT, PrevTypeName) == Some(QueryStringValue(cursors, AppStartingName).value.tag) &&
      QueryStringValue(r.modT, PrevValueName) == QueryStringValue(cursors, AppStartingName)
    ensures r.ok && QueryStringValue(cursors, AppStartingName).None? ==>
      QueryDwordValue(r.modT, PrevExistsName) == Some(0) && PrevTypeName !in r.modT && PrevValueName !in r.modT
    ensures AgreeOutside(r.modT, modT, BackupNames)
  {
    match QueryStringValue(cursors, AppStartingName)
    case Some(cur) =>
      if WritePrevExists in faults then Snapshot(modT, false)
      else
        var m1 := SetDwordValue(modT, PrevExistsName, 1);
        if WritePrevType in faults then Snapshot(m1, false)
        else
          var m2 := SetDwordValue(m1, PrevTypeName, cur.tag);
          if WritePrevValue in faults then Snapshot(m2, false)
          else Snapshot(SetStringValue(m2, PrevValueName, cur.s, cur.tag), true)
    case None =>
      if WritePrevExists in faults then Snapshot(modT, false)
      else
        var m1 := SetDwordValue(modT, PrevExistsName, 0);
        Snapshot(DeleteValue(DeleteValue(m1, PrevTypeName), PrevValueName), true)
  }

  /** The fallback cursor file under the Windows directory, when that directory is known. */
  function GetWindowsArrowPath(windowsDir: Option<string>): (r: Option<string>)
    ensures r.Some? <==> windowsDir.Some?
    ensures r.Some? ==> windowsDir.value <= r.value && r.value[|windowsDir.value|..] == ArrowSuffix
  {
    match windowsDir
    case Some(dir) => Some(dir + ArrowSuffix)
    case None => None
  }

  /**
   * The value AppStarting is set to: the Arrow cursor with its own type when
   * it reads as a non-empty string, else the Windows default arrow as REG_SZ.
   */
  function Replacement(cursors: Table, windowsDir: Option<string>): (r: Option<TypedString>)
    ensures r.Some? ==> IsStringType(r.value.tag)
    ensures match QueryStringValue(cursors, ArrowName)
      case Some(a) => |a.s| > 0 ==> r == Some(a)
      case None => true
    ensures (QueryStringValue(cursors, ArrowName).None? || QueryStringValue(cursors, ArrowName).value.s == []) ==>
      r == (if windowsDir.Some? then Some(TypedString(windowsDir.value + ArrowSuffix, REG_SZ)) else None)
  {
    var arrow := QueryStringValue(cursors, ArrowName);
    if arrow.Some? && |arrow.value.s| > 0 then arrow
    else
      match GetWindowsArrowPath(windowsDir)
      case Some(path) => Some(TypedString(path, REG_SZ))
      case None => None
  }

  /** AppStarting must be written unless it already reads as the replacement, ignoring case. */
  predicate NeedsUpdate(cursors: Table, replacement: string) {
    match QueryStringValue(cursors, AppStartingName)
    case Some(cur) => !IEquals(cur.s, replacement)
    case None => true
  }

  /** Result of Apply: the new registry, the value `ApplyCursorOverride` returns, and whether it broadcast a cursor refresh. */
  datatype ApplyResult = ApplyResult(store: Store, ok: bool, notified: bool)

  /** Result of Restore: the new registry and whether it broadcast a cursor refresh. */
  datatype RestoreResult = RestoreResult(store: Store, notified: bool)

  /**
   * How far Apply gets before it decides whether to write AppStarting:
   * aborted with the registry as the failed step left it, or ready with the
   * registry after the snapshot, the Cursors table, the private key's table,
   * whether this is the session's first Apply, and the chosen replacement.
   */
  datatype Prepared =
    | Aborted(store: Store)
    | Ready(store: Store, cursors: Table, modT: Table, firstSession: bool, rep: TypedString)

  /**
   * Apply up to the choice of replacement: create the private key, read
   * Applied, open the Cursors key, snapshot AppStarting on a first session,
   * pick the replacement. Only the private key can have changed.
   */
  function PrepareApply(st: Store, windowsDir: Option<string>, faults: Faults): (p: Prepared)
    ensures AgreeOutside(p.store, st, {ModKeyPath})
    ensures p.Aborted? && CursorsKeyPath in st ==> CursorsKeyPath in p.store && p.store[CursorsKeyPath] == st[CursorsKeyPath]
    ensures p.Ready? ==>
      && CursorsKeyPath in st
      && p.cursors == st[CursorsKeyPath]
      && p.store == st[ModKeyPath := p.modT]
      && Replacement(p.cursors, windowsDir) == Some(p.rep)
      && (p.firstSession <==> !SessionOpen(st))
      && (!p.firstSession ==> p.modT == st[ModKeyPath])
      && (p.firstSession ==> !IsApplied(p.modT) && SavedTarget(p.modT) == QueryStringValue(p.cursors, AppStartingName))
      && (p.firstSession && QueryStringValue(p.cursors, AppStartingName).None? ==>
            QueryDwordValue(p.modT, PrevExistsName) == Some(0))
  {
    if CreateModKey in faults then Aborted(st)
    else
      var modT := ModTable(st).GetOr(map[]);
      var alreadyApplied := IsApplied(modT);
      if CursorsKeyPath !in st || OpenCursorsKey in faults then Aborted(st[ModKeyPath := modT])
      else
        var cursors := st[CursorsKeyPath];
        var snap := if alreadyApplied then Snapshot(modT, true) else StoreOriginalAppStarting(modT, cursors, faults);
        if !snap.ok then Aborted(st[ModKeyPath := snap.modT])
        else
          match Replacement(cursors, windowsDir)
          case None => Aborted(st[ModKeyPath := snap.modT])
          case Some(rep) => Ready(st[ModKeyPath := snap.modT], cursors, snap.modT, !alreadyApplied, rep)
  }

  /**
   * Installs the override. After `PrepareApply`, writes the replacement into
   * AppStarting unless it already reads the same ignoring case, then on a
   * first session opens the session by setting Applied. Any failure aborts
   * at once, keeping what earlier steps wrote.
   */
  function ApplyCursorOverride(st: Store, windowsDir: Option<string>, faults: Faults): (r: ApplyResult)
    ensures r.notified ==> r.ok
    ensures r.ok ==> SessionOpen(r.store) && CursorsKeyPath in st && CursorsKeyPath in r.store
    ensures SessionOpen(r.store) <==> r.ok || SessionOpen(st)
    ensures r.ok ==>
      var rep := Replacement(st[CursorsKeyPath], windowsDir);
      var now := QueryStringValue(r.store[CursorsKeyPath], AppStartingName);
      rep.Some? && now.Some? && IEquals(now.value.s, rep.value.s) &&
      (r.notified <==> NeedsUpdate(st[CursorsKeyPath], rep.value.s)) &&
      (r.notified ==> now == rep)
    ensures CursorsKeyPath in st ==>
      CursorsKeyPath in r.store &&
      AgreeOutside(r.store[CursorsKeyPath], st[CursorsKeyPath], {AppStartingName})
    ensures AgreeOutside(r.store, st, {ModKeyPath, CursorsKeyPath})
  {
    match PrepareApply(st, windowsDir, faults)
    case Aborted(s) => ApplyResult(s, false, false)
    case Ready(s, cursors, modT, firstSession, rep) =>
      var needsUpdate := NeedsUpdate(cursors, rep.s);
      if needsUpdate && WriteAppStarting in faults then ApplyResult(s, false, false)
      else
        var s' := if needsUpdate then s[CursorsKeyPath := RawSetString(cursors, AppStartingName, rep.s, rep.tag)] else s;
        if firstSession && WriteApplied in faults then ApplyResult(s', false, false)
        else if firstSession then ApplyResult(s'[ModKeyPath := SetDwordValue(modT, AppliedName, 1)], true, needsUpdate)
        else ApplyResult(s', true, needsUpdate)
  }

  /**
   * Undoes the override. Does nothing unless the private key exists with
   * Applied set and the Cursors key opens; otherwise puts the saved value and
   * type back into AppStarting (or deletes AppStarting when nothing was
   * saved), broadcasts the refresh and deletes the private key, even when the
   * write-back itself failed.
   */
  function RestoreCursors(st: Store, faults: Faults): (r: RestoreResult)
    ensures r.notified <==>
      SessionOpen(st) && OpenModKey !in faults && CursorsKeyPath in st && OpenCursorsKey !in faults
    ensures !r.notified ==> r.store == st
    ensures r.notified ==>
      ModKeyPath !in r.store && CursorsKeyPath in r.store &&
      AgreeOutside(r.store, st, {ModKeyPath, CursorsKeyPath}) &&
      AgreeOutside(r.store[CursorsKeyPath], st[CursorsKeyPath], {AppStartingName})
    ensures r.notified && RestoreAppStarting in faults ==> r.store[CursorsKeyPath] == st[CursorsKeyPath]
    ensures r.notified && RestoreAppStarting !in faults ==>
      match SavedTarget(st[ModKeyPath])
      case Some(v) =>
        AppStartingName in r.store[CursorsKeyPath] &&
        r.store[CursorsKeyPath][AppStartingName] == Str(v.tag, v.s + [NUL])
      case None => AppStartingName !in r.store[CursorsKeyPath]
  {
    if ModKeyPath !in st || OpenModKey in faults then RestoreResult(st, false)
    else
      var modT := st[ModKeyPath];
      if !IsApplied(modT) then RestoreResult(st, false)
      else
        var saved := SavedTarget(modT);
        if CursorsKeyPath !in st || OpenCursorsKey in faults then RestoreResult(st, false)
        else
          var cursors := st[CursorsKeyPath];
          var cursors' :=
            if RestoreAppStarting in faults then cursors
            else match saved
              case Some(v) => RawSetString(cursors, AppStartingName, v.s, v.tag)
              case None => DeleteValue(cursors, AppStartingName);
          RestoreResult(st[CursorsKeyPath := cursors'] - {ModKeyPath}, true)
  }

  /** What the host keeps between activation and deactivation: the registry and `g_applied`. */
  datatype Session = Session(store: Store, applied: bool, notified: bool)

  /** `Wh_ModInit`: applies the override and remembers whether it succeeded. */
  function ModInit(st: Store, windowsDir: Option<string>, faults: Faults): (s: Session)
    ensures s.applied <==> ApplyCursorOverride(st, windowsDir, faults).ok
    ensures s.store == ApplyCursorOverride(st, windowsDir, faults).store
    ensures s.applied ==> SessionOpen(s.store)
    ensures s.notified == ApplyCursorOverride(st, windowsDir, faults).notified
    ensures !s.applied ==> !s.notified
    ensures faults == {} && CursorsKeyPath in st && Replacement(st[CursorsKeyPath], windowsDir).Some? ==> s.applied
  {
    var a := ApplyCursorOverride(st, windowsDir, faults);
    Session(a.store, a.ok, a.notified)
  }

  /** `Wh_ModUninit`: restores only when activation succeeded. */
  function ModUninit(st: Store, applied: bool, faults: Faults): (r: RestoreResult)
    ensures !applied ==> r == RestoreResult(st, false)
    ensures applied ==>
      (r.notified <==> SessionOpen(st) && OpenModKey !in faults && CursorsKeyPath in st && OpenCursorsKey !in faults)
    ensures r.notified ==> ModKeyPath !in r.store
    ensures applied && SessionOpen(st) && CursorsKeyPath in st && faults == {} ==> r.notified && ModKeyPath !in r.store
  {
    if applied then RestoreCursors(st, faults) else RestoreResult(st, false)
  }
}

=== FILE: flag_first.dfy ===
/**
 * A corrected Apply that opens the session (Applied = 1) before it touches
 * AppStarting. A failed write then can no longer leave the override
 * installed with no session recorded: AppStarting changes only when Apply
 * succeeds.
 */
module FlagFirst {
  import opened Optional
  import opened Registry
  import opened CursorOverride

  /** `ApplyCursorOverride` with the Applied write moved ahead of the AppStarting write. */
  function ApplyFlagFirst(st: Store, windowsDir: Option<string>, faults: Faults): (r: ApplyResult)
    ensures !r.ok ==> !r.notified
    ensures r.ok ==> SessionOpen(r.store)
    ensures CursorsKeyPath in st ==> CursorsKeyPath in r.store && (!r.ok ==> r.store[CursorsKeyPath] == st[CursorsKeyPath])
  {
    match PrepareApply(st, windowsDir, faults)
    case Aborted(s) => ApplyResult(s, false, false)
    case Ready(s, cursors, modT, firstSession, rep) =>
      var needsUpdate := NeedsUpdate(cursors, rep.s);
      if firstSession && WriteApplied in faults then ApplyResult(s, false, false)
      else
        var s' := if firstSession then s[ModKeyPath := SetDwordValue(modT, AppliedName, 1)] else s;
        if needsUpdate && WriteAppStarting in faults then ApplyResult(s', false, false)
        else if needsUpdate then ApplyResult(s'[CursorsKeyPath := RawSetString(cursors, AppStartingName, rep.s, rep.tag)], true, true)
        else ApplyResult(s', true, false)
  }

  /** The two orders agree unless one of the two reordered writes fails. */
  lemma FlagFirstAgrees(st: Store, windowsDir: Option<string>, faults: Faults)
    requires WriteApplied !in faults && WriteAppStarting !in faults
    ensures ApplyFlagFirst(st, windowsDir, faults) == ApplyCursorOverride(st, windowsDir, faults)
  {
    var p := PrepareApply(st, windowsDir, faults);
    if p.Ready? && p.firstSession && NeedsUpdate(p.cursors, p.rep.s) {
      var c' := RawSetString(p.cursors, AppStartingName, p.rep.s, p.rep.tag);
      var m' := SetDwordValue(p.modT, AppliedName, 1);
      assert p.store[CursorsKeyPath := c'][ModKeyPath := m'] == p.store[ModKeyPath := m'][CursorsKeyPath := c'];
    }
  }
}

=== FILE: override_properties.dfy ===
/**
 * Properties of the cursor override that relate several calls: the backup is
 * taken once per session, a second Apply changes nothing, Restore undoes
 * Apply, and the one failure that leaves the override installed with no
 * session open.
 */
module OverrideProperties {
  import opened Optional
  import opened WideText
  import opened Registry
  import opened CursorOverride

  /** Reads of values other than AppStarting are the same in two Cursors tables that differ only there. */
  lemma OtherReadsAgree(c1: Table, c2: Table, name: string)
    requires AgreeOutside(c1, c2, {AppStartingName})
    requires name != AppStartingName
    ensures QueryStringValue(c1, name) == QueryStringValue(c2, name)
  {
    assert name !in {AppStartingName};
  }

  /** Apply succeeds exactly when every step it reaches succeeds. */
  lemma ApplySucceedsIff(st: Store, windowsDir: Option<string>, faults: Faults)
    ensures ApplyCursorOverride(st, windowsDir, faults).ok <==>
      && CreateModKey !in faults
      && CursorsKeyPath in st
      && OpenCursorsKey !in faults
      && (!SessionOpen(st) ==>
            && WritePrevExists !in faults
            && (QueryStringValue(st[CursorsKeyPath], AppStartingName).Some? ==>
                  WritePrevType !in faults && WritePrevValue !in faults)
            && WriteApplied !in faults)
      && Replacement(st[CursorsKeyPath], windowsDir).Some?
      && (NeedsUpdate(st[CursorsKeyPath], Replacement(st[CursorsKeyPath], windowsDir).value.s) ==>
            WriteAppStarting !in faults)
  {
    if CreateModKey !in faults && CursorsKeyPath in st && OpenCursorsKey !in faults {
      var modT := ModTable(st).GetOr(map[]);
      assert IsApplied(modT) <==> SessionOpen(st);
    }
  }

  /** Every failed Apply leaves AppStarting as it was, except when the Applied write fails on a first session. */
  lemma ApplyFailureKeepsCursors(st: Store, windowsDir: Option<string>, faults: Faults)
    requires CursorsKeyPath in st
    requires !ApplyCursorOverride(st, windowsDir, faults).ok
    ensures !ApplyCursorOverride(st, windowsDir, faults).notified
    ensures var r := ApplyCursorOverride(st, windowsDir, faults);
      r.store[CursorsKeyPath] == st[CursorsKeyPath] ||
      (!SessionOpen(st) && WriteApplied in faults && WriteAppStarting !in faults &&
       QueryStringValue(r.store[CursorsKeyPath], AppStartingName) == Replacement(st[CursorsKeyPath], windowsDir))
  {
    if CreateModKey !in faults {
      var modT := ModTable(st).GetOr(map[]);
      assert IsApplied(modT) <==> SessionOpen(st);
    }
  }

  /** No re-snapshot: with a session already open, Apply leaves the private key exactly as it was. */
  lemma NoReSnapshot(st: Store, windowsDir: Option<string>, faults: Faults)
    requires SessionOpen(st)
    ensures var r := ApplyCursorOverride(st, windowsDir, faults);
      ModKeyPath in r.store && r.store[ModKeyPath] == st[ModKeyPath]
  {
    var modT := ModTable(st).GetOr(map[]);
    assert modT == st[ModKeyPath];
  }

  /** A successful first-session Apply records the session as Applied = 1 and a backup of the prior AppStarting. */
  lemma FirstSessionRecordsBackup(st: Store, windowsDir: Option<string>, faults: Faults)
    requires !SessionOpen(st)
    requires ApplyCursorOverride(st, windowsDir, faults).ok
    ensures var r := ApplyCursorOverride(st, windowsDir, faults);
      && QueryDwordValue(r.store[ModKeyPath], AppliedName) == Some(1)
      && SavedTarget(r.store[ModKeyPath]) == QueryStringValue(st[CursorsKeyPath], AppStartingName)
      && (QueryStringValue(st[CursorsKeyPath], AppStartingName).None? ==>
            QueryDwordValue(r.store[ModKeyPath], PrevExistsName) == Some(0))
  {
    var p := PrepareApply(st, windowsDir, faults);
    assert p.Ready? && p.firstSession;
    var m' := SetDwordValue(p.modT, AppliedName, 1);
    var needsUpdate := NeedsUpdate(p.cursors, p.rep.s);
    var s' := if needsUpdate then p.store[CursorsKeyPath := RawSetString(p.cursors, AppStartingName, p.rep.s, p.rep.tag)] else p.store;
    assert ApplyCursorOverride(st, windowsDir, faults) == ApplyResult(s'[ModKeyPath := m'], true, needsUpdate);
    SavedTargetIgnoresApplied(p.modT, m');
    assert QueryDwordValue(m', PrevExistsName) == QueryDwordValue(p.modT, PrevExistsName);
  }

  lemma SavedTargetIgnoresApplied(m1: Table, m2: Table)
    requires AgreeOutside(m1, m2, {AppliedName})
    ensures SavedTarget(m1) == SavedTarget(m2)
  {
    assert PrevExistsName !in {AppliedName};
    assert PrevTypeName !in {AppliedName};
    assert PrevValueName !in {AppliedName};
  }

  /** Apply is idempotent: right after a successful Apply, a second one changes nothing and does not broadcast. */
  lemma ApplyIdempotent(st: Store, windowsDir: Option<string>, faults: Faults, faults2: Faults)
    requires ApplyCursorOverride(st, windowsDir, faults).ok
    requires CreateModKey !in faults2 && OpenCursorsKey !in faults2
    ensures var r := ApplyCursorOverride(st, windowsDir, faults);
      ApplyCursorOverride(r.store, windowsDir, faults2) == ApplyResult(r.store, true, false)
  {
    var r := ApplyCursorOverride(st, windowsDir, faults);
    var c := st[CursorsKeyPath];
    var c' := r.store[CursorsKeyPath];
    OtherReadsAgree(c, c', ArrowName);
    var rep := Replacement(c, windowsDir).value;
    assert Replacement(c', windowsDir) == Some(rep);
    var now := QueryStringValue(c', AppStartingName).value;
    IEqualsEquivalence(now.s, rep.s, rep.s);
    OpenSessionNoUpdateIsNoOp(r.store, windowsDir, faults2);
  }

  /** With a session open and AppStarting already right, Apply is a no-op that reports success. */
  lemma OpenSessionNoUpdateIsNoOp(st: Store, windowsDir: Option<string>, faults: Faults)
    requires SessionOpen(st) && CursorsKeyPath in st
    requires CreateModKey !in faults && OpenCursorsKey !in faults
    requires Replacement(st[CursorsKeyPath], windowsDir).Some?
    requires !NeedsUpdate(st[CursorsKeyPath], Replacement(st[CursorsKeyPath], windowsDir).value.s)
    ensures ApplyCursorOverride(st, windowsDir, faults) == ApplyResult(st, true, false)
  {
    var modT := ModTable(st).GetOr(map[]);
    assert modT == st[ModKeyPath];
    assert st[ModKeyPath := modT] == st;
    assert st[CursorsKeyPath := st[CursorsKeyPath]] == st;
  }

  /**
   * When AppStarting already reads as the replacement, Apply neither writes
   * it nor broadcasts; without faults the session bookkeeping still completes.
   */
  lemma AlreadyCorrectNoWrite(st: Store, windowsDir: Option<string>, faults: Faults)
    requires CursorsKeyPath in st
    requires Replacement(st[CursorsKeyPath], windowsDir).Some?
    requires !NeedsUpdate(st[CursorsKeyPath], Replacement(st[CursorsKeyPath], windowsDir).value.s)
    ensures var r := ApplyCursorOverride(st, windowsDir, faults);
      !r.notified && r.store[CursorsKeyPath] == st[CursorsKeyPath]
    ensures faults == {} ==>
      var r := ApplyCursorOverride(st, windowsDir, faults);
      r.ok && SessionOpen(r.store) && (SessionOpen(st) ==> r.store == st)
  {
    ApplySucceedsIff(st, windowsDir, faults);
    if SessionOpen(st) && faults == {} {
      OpenSessionNoUpdateIsNoOp(st, windowsDir, faults);
    }
    if CreateModKey !in faults {
      var modT := ModTable(st).GetOr(map[]);
      assert IsApplied(modT) <==> SessionOpen(st);
    }
  }

  /**
   * Round trip: Restore after a successful first-session Apply gives back
   * AppStarting with its original string and type tag (or its absence),
   * removes the private key, and leaves every other value and key as Apply
   * found it.
   */
  lemma RoundTrip(st: Store, windowsDir: Option<string>, faults: Faults)
    requires !SessionOpen(st)
    requires ApplyCursorOverride(st, windowsDir, faults).ok
    ensures var b := RestoreCursors(ApplyCursorOverride(st, windowsDir, faults).store, {});
      && b.notified
      && ModKeyPath !in b.store
      && CursorsKeyPath in b.store
      && QueryStringValue(b.store[CursorsKeyPath], AppStartingName) == QueryStringValue(st[CursorsKeyPath], AppStartingName)
      && RewrittenAs(b.store[CursorsKeyPath], QueryStringValue(st[CursorsKeyPath], AppStartingName))
      && AgreeOutside(b.store[CursorsKeyPath], st[CursorsKeyPath], {AppStartingName})
      && AgreeOutside(b.store, st, {ModKeyPath, CursorsKeyPath})
  {
    FirstSessionRecordsBackup(st, windowsDir, faults);
    var a := ApplyCursorOverride(st, windowsDir, faults);
    var b := RestoreCursors(a.store, {});
    var orig := QueryStringValue(st[CursorsKeyPath], AppStartingName);
    match orig
    case Some(v) =>
      assert b.store[CursorsKeyPath][AppStartingName] == Str(v.tag, v.s + [NUL]);
    case None =>
      assert AppStartingName !in b.store[CursorsKeyPath];
  }

  /** AppStarting holds `v` as this program writes strings, or is absent when `v` is None. */
  predicate RewrittenAs(cursors: Table, v: Option<TypedString>) {
    match v
    case Some(x) => AppStartingName in cursors && cursors[AppStartingName] == Str(x.tag, x.s + [NUL])
    case None => AppStartingName !in cursors
  }

  /**
   * When the private key did not exist and AppStarting was absent or stored
   * as this program writes strings, Apply followed by Restore gives back the
   * registry exactly.
   */
  lemma RoundTripExact(st: Store, windowsDir: Option<string>, faults: Faults)
    requires ModKeyPath !in st
    requires CursorsKeyPath in st
    requires AppStartingName in st[CursorsKeyPath] ==> Canonical(st[CursorsKeyPath][AppStartingName])
    requires ApplyCursorOverride(st, windowsDir, faults).ok
    ensures RestoreCursors(ApplyCursorOverride(st, windowsDir, faults).store, {}).store == st
  {
    RoundTrip(st, windowsDir, faults);
    var b := RestoreCursors(ApplyCursorOverride(st, windowsDir, faults).store, {}).store;
    RewriteOfCanonicalIsIdentity(st[CursorsKeyPath], b[CursorsKeyPath]);
    StoreAgreeing(b, st);
  }

  lemma RewriteOfCanonicalIsIdentity(c: Table, c': Table)
    requires AppStartingName in c ==> Canonical(c[AppStartingName])
    requires RewrittenAs(c', QueryStringValue(c, AppStartingName))
    requires AgreeOutside(c', c, {AppStartingName})
    ensures c' == c
  {
    if AppStartingName in c {
      CanonicalRewriteExact(c, AppStartingName);
    }
    SameExceptAgreeing(c', c, AppStartingName);
  }

  lemma StoreAgreeing(b: Store, st: Store)
    requires ModKeyPath !in b && ModKeyPath !in st
    requires CursorsKeyPath in b && CursorsKeyPath in st && b[CursorsKeyPath] == st[CursorsKeyPath]
    requires AgreeOutside(b, st, {ModKeyPath, CursorsKeyPath})
    ensures b == st
  {
    forall k | k in b
      ensures k in st && b[k] == st[k]
    {
      if k != CursorsKeyPath {
        assert k !in {ModKeyPath, CursorsKeyPath};
      }
    }
    forall k | k in st
      ensures k in b
    {
      if k != CursorsKeyPath {
        assert k !in {ModKeyPath, CursorsKeyPath};
      }
    }
  }

  lemma SameExceptAgreeing<V>(t: map<string, V>, u: map<string, V>, name: string)
    requires AgreeOutside(t, u, {name})
    requires name in t <==> name in u
    requires name in t ==> t[name] == u[name]
    ensures t == u
  {
    forall n | n in t
      ensures n in u && t[n] == u[n]
    {
      if n != name {
        assert n !in {name};
      }
    }
    forall n | n in u
      ensures n in t
    {
      if n != name {
        assert n !in {name};
      }
    }
  }

  /**
   * An AppStarting value that is not a string (a REG_DWORD, say) cannot be
   * read, so the backup records it as absent and the round trip deletes it.
   */
  lemma NonStringTargetDeleted(st: Store, windowsDir: Option<string>, faults: Faults)
    requires !SessionOpen(st)
    requires ApplyCursorOverride(st, windowsDir, faults).ok
    requires AppStartingName in st[CursorsKeyPath]
    requires !IsStringType(st[CursorsKeyPath][AppStartingName].Type())
    ensures AppStartingName !in RestoreCursors(ApplyCursorOverride(st, windowsDir, faults).store, {}).store[CursorsKeyPath]
  {
    FirstSessionRecordsBackup(st, windowsDir, faults);
  }

  /** Restore is one-shot: once it has run, running it again changes nothing. */
  lemma RestoreOnce(st: Store, faults: Faults, faults2: Faults)
    requires RestoreCursors(st, faults).notified
    ensures var r := RestoreCursors(st, faults).store;
      RestoreCursors(r, faults2) == RestoreResult(r, false)
  {
  }

  /**
   * The latent gap: if writing Applied fails on a first session after
   * AppStarting was changed, Apply reports failure, so the host will never
   * restore, yet AppStarting holds the replacement and no session is open.
   */
  lemma AppliedWriteGap(st: Store, windowsDir: Option<string>)
    requires !SessionOpen(st) && CursorsKeyPath in st
    requires Replacement(st[CursorsKeyPath], windowsDir).Some?
    requires NeedsUpdate(st[CursorsKeyPath], Replacement(st[CursorsKeyPath], windowsDir).value.s)
    ensures var r := ApplyCursorOverride(st, windowsDir, {WriteApplied});
      && !r.ok
      && !SessionOpen(r.store)
      && QueryStringValue(r.store[CursorsKeyPath], AppStartingName) == Replacement(st[CursorsKeyPath], windowsDir)
      && QueryStringValue(r.store[CursorsKeyPath], AppStartingName) != QueryStringValue(st[CursorsKeyPath], AppStartingName)
  {
    var p := PrepareApply(st, windowsDir, {WriteApplied});
    assert p.Ready? && p.firstSession;
    var c' := RawSetString(p.cursors, AppStartingName, p.rep.s, p.rep.tag);
    var st3 := p.store[CursorsKeyPath := c'];
    assert ApplyCursorOverride(st, windowsDir, {WriteApplied}) == ApplyResult(st3, false, false);
    assert st3[ModKeyPath] == p.modT && !SessionOpen(st3);
    assert QueryStringValue(st3[CursorsKeyPath], AppStartingName) == Some(p.rep);
    if QueryStringValue(p.cursors, AppStartingName).Some? {
      IEqualsEquivalence(p.rep.s, p.rep.s, p.rep.s);
    }
  }

  /**
   * After that failed Apply, the next session's Apply takes its snapshot of
   * the replacement, so a later Restore puts back the replacement and the
   * original AppStarting is lost.
   */
  lemma AppliedWriteGapLosesOriginal(st: Store, windowsDir: Option<string>)
    requires !SessionOpen(st) && CursorsKeyPath in st
    requires Replacement(st[CursorsKeyPath], windowsDir).Some?
    requires NeedsUpdate(st[CursorsKeyPath], Replacement(st[CursorsKeyPath], windowsDir).value.s)
    ensures var r1 := ApplyCursorOverride(st, windowsDir, {WriteApplied});
      var r2 := ApplyCursorOverride(r1.store, windowsDir, {});
      && r2.ok
      && SavedTarget(r2.store[ModKeyPath]) == Replacement(st[CursorsKeyPath], windowsDir)
      && SavedTarget(r2.store[ModKeyPath]) != QueryStringValue(st[CursorsKeyPath], AppStartingName)
  {
    AppliedWriteGap(st, windowsDir);
    var r1 := ApplyCursorOverride(st, windowsDir, {WriteApplied});
    var c := st[CursorsKeyPath];
    var c1 := r1.store[CursorsKeyPath];
    OtherReadsAgree(c, c1, ArrowName);
    assert Replacement(c1, windowsDir) == Replacement(c, windowsDir);
    ApplySucceedsIff(r1.store, windowsDir, {});
    FirstSessionRecordsBackup(r1.store, windowsDir, {});
  }

  /**
   * The host lifecycle: deactivation restores exactly when activation
   * succeeded, and then completes the round trip.
   */
  lemma SessionRoundTrip(st: Store, windowsDir: Option<string>, faults: Faults)
    requires !SessionOpen(st)
    ensures var s := ModInit(st, windowsDir, faults);
      var u := ModUninit(s.store, s.applied, {});
      && (!s.applied ==> u.store == s.store && !u.notified)
      && (s.applied ==>
            && u.notified
            && ModKeyPath !in u.store
            && QueryStringValue(u.store[CursorsKeyPath], AppStartingName) == QueryStringValue(st[CursorsKeyPath], AppStartingName))
  {
    if ApplyCursorOverride(st, windowsDir, faults).ok {
      RoundTrip(st, windowsDir, faults);
    }
  }

  /**
   * The documented scenario: AppStarting absent, Arrow = C:\Win\cur1.cur.
   * Apply sets AppStarting to the arrow and records that there was no
   * original; Restore deletes AppStarting and the private key again.
   */
  lemma ScenarioTargetAbsent()
    ensures var arrow := "C:\\Win\\cur1.cur";
      var st: Store := map[CursorsKeyPath := map[ArrowName := Str(REG_SZ, arrow + [NUL])]];
      var a := ApplyCursorOverride(st, None, {});
      && a.ok && a.notified
      && QueryStringValue(a.store[CursorsKeyPath], AppStartingName) == Some(TypedString(arrow, REG_SZ))
      && QueryDwordValue(a.store[ModKeyPath], PrevExistsName) == Some(0)
      && RestoreCursors(a.store, {}).store == st
  {
    var arrow := "C:\\Win\\cur1.cur";
    var st: Store := map[CursorsKeyPath := map[ArrowName := Str(REG_SZ, arrow + [NUL])]];
    var c := st[CursorsKeyPath];
    assert ModKeyPath !in st;
    assert !SessionOpen(st);
    assert QueryStringValue(c, ArrowName) == Some(TypedString(arrow, REG_SZ));
    assert Replacement(c, None) == Some(TypedString(arrow, REG_SZ));
    assert QueryStringValue(c, AppStartingName).None?;
    assert NeedsUpdate(c, arrow);
    ApplySucceedsIff(st, None, {});
    var a := ApplyCursorOverride(st, None, {});
    assert a.ok && a.notified;
    FirstSessionRecordsBackup(st, None, {});
    RoundTripExact(st, None, {});
  }
}

=== FILE: registry.dfy ===
/**
 * The per-user registry (HKEY_CURRENT_USER) as an immutable map from key path
 * to value table, and the typed accessors the cursor override reads and
 * writes it through. A key that does not exist is a path absent from the map.
 */
module Registry {
  import opened Optional
  import opened WideText

  /** A Win32 DWORD: an unsigned 32-bit integer. */
  type DWORD = n: int | 0 <= n < 0x1_0000_0000

  const REG_SZ: DWORD := 1
  const REG_EXPAND_SZ: DWORD := 2
  const REG_DWORD: DWORD := 4

  predicate IsStringType(t: DWORD) {
    t == REG_SZ || t == REG_EXPAND_SZ
  }

  /**
   * A stored registry value. A string value keeps its raw type tag (whatever
   * the writer passed) and its characters exactly as written, terminating
   * NUL included.
   */
  datatype Value =
    | Dword(n: DWORD)
    | Str(tag: DWORD, chars: string)
  {
    function Type(): DWORD {
      if Dword? then REG_DWORD else tag
    }
  }

  /** The named values of one key. */
  type Table = map<string, Value>

  /** Every existing key under HKEY_CURRENT_USER, by path. */
  type Store = map<string, Table>

  /** `a` and `b` hold the same entries under every name outside `names`. */
  ghost predicate AgreeOutside<V>(a: map<string, V>, b: map<string, V>, names: set<string>) {
    forall k :: k !in names ==> (k in a <==> k in b) && (k in a ==> a[k] == b[k])
  }

  /** A string read back from the registry, with its type tag. */
  datatype TypedString = TypedString(s: string, tag: DWORD)

  /** A string value in the form this program writes it: a string type tag and one trailing NUL. */
  predicate Canonical(v: Value) {
    v.Str? && IsStringType(v.tag) && |v.chars| > 0 && v.chars[|v.chars| - 1] == NUL
  }

  /** The characters `QueryStringValue` hands back: the stored ones, one trailing NUL removed. */
  function StripNul(chars: string): (r: string)
    ensures r + [NUL] == chars || (r == chars && (|chars| == 0 || chars[|chars| - 1] != NUL))
  {
    if |chars| > 0 && chars[|chars| - 1] == NUL then chars[..|chars| - 1] else chars
  }

  /** Reads a string value; fails when it is absent or its type is neither REG_SZ nor REG_EXPAND_SZ. */
  function QueryStringValue(t: Table, name: string): (r: Option<TypedString>)
    ensures r.Some? <==> name in t && IsStringType(t[name].Type())
    ensures r.Some? ==> t[name].Str? && r.value.tag == t[name].tag
    ensures r.Some? ==>
      var chars := t[name].chars;
      if |chars| > 0 && chars[|chars| - 1] == NUL then r.value.s + [NUL] == chars else r.value.s == chars
  {
    if name in t && t[name].Str? && IsStringType(t[name].tag) then
      Some(TypedString(StripNul(t[name].chars), t[name].tag))
    else
      None
  }

  /** Reads a DWORD value; fails when it is absent or not of type REG_DWORD. */
  function QueryDwordValue(t: Table, name: string): (r: Option<DWORD>)
    ensures r.Some? <==> name in t && t[name].Dword?
    ensures r.Some? ==> t[name] == Dword(r.value)
  {
    if name in t && t[name].Dword? then Some(t[name].n) else None
  }

  /** `RegSetValueExW` of `s.c_str()` with `s.size() + 1` characters under the tag as given. */
  function RawSetString(t: Table, name: string, s: string, tag: DWORD): (r: Table)
    ensures IsStringType(tag) ==> QueryStringValue(r, name) == Some(TypedString(s, tag))
    ensures !IsStringType(tag) ==> QueryStringValue(r, name).None?
    ensures AgreeOutside(r, t, {name})
  {
    t[name := Str(tag, s + [NUL])]
  }

  /** The tag `SetStringValue` actually writes: anything but a string type becomes REG_SZ. */
  function NormalizeStringType(tag: DWORD): (r: DWORD)
    ensures IsStringType(r)
    ensures IsStringType(tag) ==> r == tag
    ensures !IsStringType(tag) ==> r == REG_SZ
  {
    if IsStringType(tag) then tag else REG_SZ
  }

  /** Writes a string value; reading it back yields the same string under the normalised tag. */
  function SetStringValue(t: Table, name: string, s: string, tag: DWORD): (r: Table)
    ensures QueryStringValue(r, name) == Some(TypedString(s, NormalizeStringType(tag)))
    ensures Canonical(r[name])
    ensures AgreeOutside(r, t, {name})
  {
    RawSetString(t, name, s, NormalizeStringType(tag))
  }

  /** Writes a DWORD value; reading it back yields the same number. */
  function SetDwordValue(t: Table, name: string, n: DWORD): (r: Table)
    ensures QueryDwordValue(r, name) == Some(n)
    ensures QueryStringValue(r, name).None?
    ensures AgreeOutside(r, t, {name})
  {
    t[name := Dword(n)]
  }

  /** `RegDeleteValueW`: removes the value if present. */
  function DeleteValue(t: Table, name: string): (r: Table)
    ensures name !in r
    ensures AgreeOutside(r, t, {name})
  {
    t - {name}
  }

  /** Writing back a string as it was read reproduces a canonical stored value exactly. */
  lemma CanonicalRewriteExact(t: Table, name: string)
    requires name in t && Canonical(t[name])
    ensures QueryStringValue(t, name).Some?
    ensures var v := QueryStringValue(t, name).value; RawSetString(t, name, v.s, v.tag) == t
  {
    var v := QueryStringValue(t, name).value;
    assert v.s + [NUL] == t[name].chars;
    assert t[name] == Str(v.tag, v.s + [NUL]);
  }
}

=== FILE: wide_text.dfy ===
/**
 * Wide-character text as the cursor override compares it. `_wcsicmp` receives
 * `c_str()` pointers, so it sees each `std::wstring` only up to its first NUL,
 * and in the default "C" locale it folds only the ASCII letters A-Z.
 */
module WideText {

  const NUL: char := '\0'

  /** The characters a C string routine sees through `s.c_str()`: all before the first NUL. */
  function CStr(s: string): (r: string)
    ensures r <= s
    ensures NUL !in r
    ensures |r| == |s| || s[|r|] == NUL
  {
    if |s| == 0 || s[0] == NUL then [] else [s[0]] + CStr(s[1..])
  }

  /** Per-character case fold of `_wcsicmp` in the "C" locale: upper-case ASCII to lower case. */
  function Fold(c: char): char {
    if 'A' <= c <= 'Z' then (c as int + 32) as char else c
  }

  function FoldStr(s: string): (r: string)
    ensures |r| == |s|
    ensures forall i :: 0 <= i < |s| ==> r[i] == Fold(s[i])
  {
    seq(|s|, i requires 0 <= i < |s| => Fold(s[i]))
  }

  /** `_wcsicmp(a.c_str(), b.c_str()) == 0`. */
  predicate IEquals(a: string, b: string) {
    FoldStr(CStr(a)) == FoldStr(CStr(b))
  }

  /** Two NUL-free strings are equal ignoring case exactly when they have the
      same length and agree position by position after folding. */
  lemma IEqualsNulFree(a: string, b: string)
    requires NUL !in a && NUL !in b
    ensures IEquals(a, b) <==> |a| == |b| && forall i :: 0 <= i < |a| ==> Fold(a[i]) == Fold(b[i])
  {
    CStrNulFree(a);
    CStrNulFree(b);
    if |a| == |b| && forall i :: 0 <= i < |a| ==> Fold(a[i]) == Fold(b[i]) {
      assert FoldStr(a) == FoldStr(b);
    }
  }

  lemma CStrNulFree(s: string)
    requires NUL !in s
    ensures CStr(s) == s
  {
    var r := CStr(s);
    assert |r| == |s|;
  }

  /** Anything after a NUL is invisible to the comparison. */
  lemma IEqualsStopsAtNul(a: string, tail: string)
    requires NUL !in a
    ensures IEquals(a, a + [NUL] + tail)
  {
    CStrNulFree(a);
    var s := a + [NUL] + tail;
    var r := CStr(s);
    assert s[|a|] == NUL;
    assert |r| == |a|;
    assert r == s[..|a|] == a;
  }

  /** The comparison is an equivalence relation. */
  lemma IEqualsEquivalence(a: string, b: string, c: string)
    ensures IEquals(a, a)
    ensures IEquals(a, b) ==> IEquals(b, a)
    ensures IEquals(a, b) && IEquals(b, c) ==> IEquals(a, c)
  {
  }
}

=== FILE: wrappers.dfy ===
/**
 * A registry read that can fail: `Some` carries what was read, `None`
 * stands for a missing value, a wrong type or a key that did not open.
 */
module Optional {

  datatype Option<T> = None | Some(value: T) {

    /** The value read, or the caller's fallback when the read failed. */
    function GetOr(fallback: T): T {
      if Some? then value else fallback
    }
  }
}
